=== FILE: README.md ===
# Drawing-game session logic, modelled in Dafny

This project models the in-memory game-session logic of a multiplayer
drawing-and-guessing server (`socket.js`) and the token helpers of its
authentication service (`services/auth.js`). A room holds an ordered list of
members, each with an id, a name, points and a `hasDrawn` flag, plus a status,
a `gameStarted` flag, the current drawer, the secret word and the round clock.
Players join a room, the room's author starts a game, each member draws once
per game while the others guess in chat, correct guesses score points, and
the game ends when everybody has drawn.

The socket.io transport, timers, database and random sources are replaced by
explicit inputs and steps:

- every handler is a pure function on immutable records: `Registry.Join`,
  `Registry.StartGame`, `Registry.Disconnect`, `Room.Chat`, `Room.Tick` (one
  second of the round clock), `Room.CountdownTick` (one second of the countdown
  before a round) and `Room.Resolve` (end of round);
- `Math.random` in the turn selector becomes a `seed`; the selector picks the
  `seed`-th member who has not drawn, and `Turns.EveryEligibleMemberCanBePicked`
  shows that the seeds reach exactly the members the random loop can reach;
- the random word is an input of `Room.CountdownTick`;
- the author id fetched from the database is an input of `Registry.StartGame`, absent when the room row is missing;
  the user row fetched on connection is an input of `Registry.Join` (`None`
  when the fetch fails);
- whether all three point increments in the database succeed is the input
  `saved` of `Room.Resolve` and `Room.Chat`; in-memory points change only
  when it is true.

Modules: `Config` (constants), `JsText` (JavaScript `trim`, `toLowerCase`,
`split`, `%`), `Auth`, `Scoring`, `Members`, `Turns`, `Room`,
`RoomProperties`, `Registry`, `Views`, `Wrappers` (Option).

The model keeps these behaviours of the code:

- there is no "too few players" error: `MIN_PLAYERS_TO_START_GAME` is declared
  and never read (`Registry.LoneAuthorCanStart`);
- a member's `hasDrawn` is set when their round starts, not when it ends;
- only the guess is lowercased, not the stored word, so a word with a capital
  letter cannot be guessed (`RoomProperties.UppercaseWordNeverGuessed`);
- guesses are not gated on the phase, and the previous drawer and word persist
  through the countdown, so a round can be resolved, and scored, twice
  (`RoomProperties.StaleGuessResolvesAgain`);
- the countdown announces 5, 4, 3, 2, 1, 0 and the round starts on the sixth
  tick;
- the word is not cleared at game over, and rooms are never removed;
- reaching capacity starts a round without setting `gameStarted`.

## Model

| member | source | states |
|---|---|---|
| `JsText.Trim` | socket.js:458 | the trimmed message has no whitespace at either end, and is empty exactly when the message is all whitespace |
| `JsText.TrimIsInfix` | socket.js:458 | trimming only removes whitespace: the result is an infix of the message with whitespace on both sides |
| `JsText.TrimPadded` | socket.js:458 | trimming removes exactly the padding: any whitespace around a word with non-whitespace ends is stripped and the word returned intact |
| `JsText.ToLower` | socket.js:477 | lowercasing keeps the length, turns each A-Z capital into its small letter (code point plus 32), leaves no upper-case letter and changes no other character |
| `JsText.LowerMatchesIgnoringCase` | socket.js:477 | for a word without capitals, a lowercased message equals it exactly when the message spells it up to ASCII case |
| `JsText.UpperIsNoLowercase` | socket.js:477 | a string containing an upper-case letter is never the lowercase of any message |
| `JsText.Split` | services/auth.js:59 | splitting yields at least one piece and no piece contains the separator |
| `JsText.JoinSplit` | services/auth.js:59 | joining the pieces of a split with the separator gives back the header |
| `JsText.SplitJoin` | services/auth.js:61 | splitting a join of separator-free pieces gives back exactly those pieces |
| `JsText.RemTen` | socket.js:333 | JavaScript's truncating `% 10` takes the sign of the dividend and is zero exactly when the Euclidean remainder is |
| `Auth.GetTokenFromHeader` | services/auth.js:56-65 | no header gives null; a header whose first piece is exactly "Bearer" never gives null; a returned token contains no space |
| `Auth.BearerTokenExtracted` | services/auth.js:58-61 | "Bearer", a space and a token, followed by any further pieces, yields exactly that token |
| `Auth.TokenComesFromBearer` | services/auth.js:58-61 | a token is returned only as the second space-separated piece of a header whose first piece is exactly "Bearer" |
| `Auth.BareBearerIsUndefined` | services/auth.js:56-65 | the result is undefined exactly for the header "Bearer", and the loose null check of `authenticate` treats that as no token |
| `Auth.OtherSchemesRejected` | services/auth.js:58-59 | the scheme match is case-sensitive: "bearer x" and "Basic x" yield null |
| `Auth.ExtractionExamples` | services/auth.js:61 | "Bearer a b" yields "a" and "Bearer  x" (two spaces) yields the empty string |
| `Auth.JwtPayload` | services/auth.js:16-22 | the claims object handed to `jwt.sign` has exactly the keys id and username, holding the user's values (undefined when missing) |
| `Auth.PayloadHidesOtherFields` | services/auth.js:16-22 | no other user property reaches the payload, and projecting a payload again changes nothing |
| `Scoring.CeilDiv` | socket.js:377-378 | the quotient is the ceiling: the least integer whose multiple of the divisor reaches the dividend |
| `Scoring.GuesserBase` | socket.js:368-377 | the guesser's award is the least multiple of 10 that is at least both 10 and 100·gameTime/10, and at most 100 while gameTime is at most 10 |
| `Scoring.DrawerShare` | socket.js:378 | the drawer's share is the least multiple of 10 that is at least half the unclamped guesser award |
| `Scoring.Capped` | socket.js:380-391 | a capped award never lifts the holder above 300, never exceeds the uncapped award, equals it when it fits and is exactly what is left below 300 when it does not, and is non-negative for a holder within the cap |
| `Scoring.RoundAwards` | socket.js:368-391 | the guesser gets the base award or, when that would pass 300, exactly what is left below 300; the drawer likewise gets half the uncapped base award or what is left below 300 |
| `Scoring.DrawerAwardIgnoresWinner` | socket.js:377-391 | the drawer's award is the same whatever the winner holds: the capped share of the uncapped guesser award |
| `Scoring.AwardRange` | socket.js:368-378 | over a round's clock (0..10 s left) the guesser's award is in [10, 100], ten points per second left, and the drawer's share in [10, 50] |
| `Scoring.AwardsKeepCap` | socket.js:380-391 | for players within [0, 300] both awards are non-negative and neither player ends above 300 |
| `Scoring.DrawerShareIgnoresGuesserCap` | socket.js:377-391 | a winner already at 300 gains nothing while the drawer still gets the share of the full award (50) |
| `Members.WithoutUser` | socket.js:513-515 | the filtered list holds exactly the members whose id differs from the leaving user's |
| `Members.WithoutUserAppend` | socket.js:513-515 | filtering distributes over concatenation, so the remaining members keep their order |
| `Members.MarkDrawn` | socket.js:262-264 | marking an index removes exactly that index from the members who have not drawn; that entry gains `hasDrawn` and every other entry and the length are unchanged |
| `Turns.PickNextDrawingMember` | socket.js:17-35 | the selector returns none exactly when every member has drawn (the empty list included), otherwise an in-range index of a member who has not drawn |
| `Turns.EveryEligibleMemberCanBePicked` | socket.js:29-32 | every member who has not drawn is the selector's pick for some random outcome |
| `Turns.PickNext` | socket.js:17-35 | the scan-then-draw algorithm meets the selector contract: none iff nobody is eligible, else an eligible index |
| `Turns.DrawOrderDistinctUndrawn` | socket.js:17-34 | over a fixed member list, successive rounds pick only members who had not drawn, and nobody twice |
| `Turns.DrawOrderLength` | socket.js:17-34 | there are as many rounds as members who had not drawn (given enough random draws) before the selector reports game over |
| `Turns.DrawOrderCovers` | socket.js:17-34 | given enough rounds every member who had not drawn draws |
| `Room.EndGame` | socket.js:166-184 | game over: status GAME_OVER, gameStarted false, no drawer, every member may draw again, order, ids, names and points kept, word kept |
| `Room.PrepareRound` | socket.js:159-211 | with everybody drawn the game ends; otherwise the room waits with a 5-second countdown for an eligible member, and nothing else changes (the previous drawer and word persist) |
| `Room.StartRound` | socket.js:228-272 | the round starts with 10 seconds, the given word and the chosen drawer; only the chosen index is marked as drawn and the clock is armed, unless the index fell off a shrunk list, in which case nothing is marked and no clock is armed |
| `Room.CountdownTick` | socket.js:213-226 | each countdown second announces the count; the tick finding it at zero or below starts the round, otherwise the count drops by one and nothing else in the room changes |
| `Room.AwardPoints` | socket.js:380-407 | a saved win adds the guesser's award to every entry of the winner and the drawer's award to every entry of the drawer and to the drawer record; nothing else changes |
| `Room.Resolve` | socket.js:344-453 | resolution stops the clock, keeps word, clock value, member order, ids and names, sets nobody's `hasDrawn`, leaves points alone without a winner or without saved increments, ends the game exactly when everybody had drawn (clearing `gameStarted`, the drawer and every `hasDrawn`), and otherwise waits on a fresh 5-second countdown for a member who had not drawn, with every `hasDrawn` as it was, the same drawer (only its points may change) and `gameStarted` kept |
| `Room.Tick` | socket.js:330-342 | a tick announces exactly when the time left is a multiple of 10 or at most 5, decrements it by one and changes nothing else, and resolves the round without winner exactly when the time left was at most 1; a stopped clock does nothing |
| `Room.Chat` | socket.js:456-483 | a whitespace-only message has no effect; otherwise the trimmed text is broadcast, and the round resolves with the sender as winner exactly when there is a drawer, the sender is not the drawer and the lowercased text equals the stored word |
| `RoomProperties.ResolveAwards` | socket.js:361-410 | with saved increments each entry gains the guesser award if it is the winner's and the drawer share if it is the drawer's; otherwise no points move |
| `RoomProperties.ResolveKeepsPointsCapped` | socket.js:380-407 | a resolution keeps every member's points in [0, 300] when winner and drawer are different users whose records agree with their entries |
| `RoomProperties.StaleGuessResolvesAgain` | socket.js:472-483 | a correct guess repeated during the countdown after the round it resolved resolves again |
| `RoomProperties.UppercaseWordNeverGuessed` | socket.js:476-477 | a stored word containing an upper-case letter is never guessed |
| `RoomProperties.DrawerCannotGuess` | socket.js:475 | the drawer's own messages never resolve the round |
| `RoomProperties.PaddedMixedCaseGuess` | socket.js:457-477 | the message "  Apple  " guesses the word "apple" |
| `RoomProperties.TicksCountDown` | socket.js:330-342 | while more than n seconds are left, n ticks only lower the time left by n |
| `RoomProperties.RoundTimesOutAfterTenTicks` | socket.js:256 | a round started with 10 seconds is still running after nine ticks and ends, without winner, on the tenth |
| `RoomProperties.CountdownWaits` | socket.js:213-226 | while the count is at least n, n countdown ticks only lower it by n |
| `RoomProperties.RoundStartsOnSixthCountdownTick` | socket.js:213-264 | after a drawer is chosen the room still waits after five countdown ticks and the sixth starts the round with the chosen member drawing and marked as drawn |
| `Registry.Join` | socket.js:113-328 | a full room refuses; a missing room id or user drops the connection; otherwise the fresh entry is appended (or the room created with it), other rooms are untouched, and a room that becomes full waits on a 5-second countdown for a member who has not drawn, with nothing else changed and gameStarted not set |
| `Registry.JoinKeepsCapacity` | socket.js:113-119 | joining never takes a room past 8 members |
| `Registry.Disconnect` | socket.js:511-524 | every entry of the leaving user is removed and no other; status, drawer, word and other rooms stay as they were, and the room is kept |
| `Registry.DisconnectKeepsOrder` | socket.js:513-515 | the members who stay keep their relative order |
| `Registry.StartGame` | socket.js:487-509 | a missing room row aborts the handler with no change and no error; a non-author gets "Not owner of the room", the author with a game running gets "Game already running", both without any change; otherwise gameStarted is set and a round is prepared |
| `Registry.StartGameKeepsMembers` | socket.js:494-497 | an accepted start neither adds nor removes members nor changes their points |
| `Registry.LoneAuthorCanStart` | socket.js:9 | the author alone in a room can start a game: the declared two-player minimum is not enforced |
| `Views.PickAttributesFromUser` | socket.js:37-47 | null stays null; a member shows exactly its id, name and points |
| `Views.GetRoom` | socket.js:55-68 | the room view carries the stored id, name and author, and with game data its status, its members' public attributes in order and the drawer's |
| `Views.RoomViewHidesTurnsAndWord` | socket.js:55-68 | the room view does not depend on who has drawn or on the word |
| `Views.JoinSnapshot` | socket.js:303-317 | a joining user receives the member views, the status and the drawer's view, and the word only when they are the current drawer, and then exactly the stored word |

## Left out

- Transport: socket.io namespaces, rooms, every `emit`, the `draw` relay and the JWT handshake of each connection carry messages and hold no game state. Announcements of the two clocks are returned as values; the rest are not modelled.
- Concurrency: the handlers are modelled as atomic steps. In the source, the capacity check and the append are separated by the user fetch, so two joins can overfill a room; and a second `startGameRound` (a stale guess, or the author starting after an auto-start) runs its own countdown alongside the first. The model keeps one countdown, and a second preparation replaces the first. Two further effects follow in the source that the model does not show:
  - a second `startGameRound` overwrites `gameTimeInterval` (socket.js:267-272) and resolution clears only the current handle (socket.js:346-348), so the earlier clock keeps ticking the shared `gameTime`; once it is at or below 1 that stray clock resolves the round every second (socket.js:339-341), each time starting another preparation. `RoomProperties.StaleGuessResolvesAgain` shows the second preparation's trigger.
  - the member whose join fills the room gets the `chat`, `startGame` and `disconnect` handlers only after `await startGameRound()` returns (socket.js:324-328 runs before socket.js:456-524), so that member's disconnect during the countdown is never handled and their entry stays in the list.
- Database: user and room rows, the `games_played` increments at game over, the point and correct-guess increments, the lobby's room list (`getRoomArray`) and all of `data/`. Their results enter as inputs (`user`, `authorId`, `saved`).
- Object aliasing: the source keeps the drawer and each connection's user as shared objects; after a game over the member list holds copies, so later awards to a connection's object no longer show in the list. The model uses value records keyed by user id and adds awards to every entry with the winner's or drawer's id.
- `RoomProperties.ResolveKeepsPointsCapped`: assumes the winner's and drawer's records agree with their entries, which the source gets from object identity; with one user joined twice under different records the by-id update can differ from the source.
- Floating point: the guesser's award is computed in doubles; for integer time left up to 10, the only values the clock takes, the product is exact and the integer model agrees.
- `JsText.ToLower`: maps only the ASCII letters; the source's `toLowerCase` uses full Unicode case mapping.
- `gameTime` is undefined in the source until the first round starts; the model starts it at 0, which no step reads before a round starts.
- Handlers other than join require their room to exist, as it always does for a joined connection. A join without a room id looks up the key "undefined" in the source; the model refuses it directly, with the same effect.
- `Room.Chat` takes the message as a string; a non-string payload makes the source's handler throw before any state change.
- Errors other than an index that fell off a shrunk member list are not modelled in `startGameRound`'s catch.
- Password hashing and verification, JWT signing and verification, and the user lookup of `authenticate` are library or database calls.
- HTTP routes, app bootstrap, migrations, seeds and the commented-out handler at the end of socket.js.

=== FILE: auth.dfy ===
/** The token parsing and claim projection of services/auth.js. Signing,
    verification and password hashing are library calls and stay outside. */
module Auth {
  import opened Wrappers
  import opened JsText

  /** The JavaScript values these helpers produce or read: the header parser
      yields only `null`, `undefined` or a string, while a user record's `id`
      is a number. */
  datatype JsValue = Null | Undefined | Num(n: int) | Str(s: string)

  /** The loose `token != null` test of `authenticate`: `undefined` counts as no token. */
  predicate HasToken(v: JsValue)
  {
    !v.Null? && !v.Undefined?
  }

  /** `getTokenFromHeader`: `header` is `req.headers.authorization`, `None`
      when the request has none. An empty header is falsy and gives `null`;
      otherwise the header is split on single spaces, the first piece must be
      exactly "Bearer", and the second piece (possibly `undefined`) is returned. */
  function GetTokenFromHeader(header: Option<string>): (r: JsValue)
    ensures !r.Num?
    ensures header.None? ==> r == Null
    ensures header.Some? && header.value != "" && Split(header.value, ' ')[0] == "Bearer"
            ==> r != Null
    ensures r.Str? ==> ' ' !in r.s
  {
    match header
    case None => Null
    case Some(h) =>
      if h == "" then Null
      else
        var parts := Split(h, ' ');
        if parts[0] == "Bearer" then
          if |parts| > 1 then Str(parts[1]) else Undefined
        else Null
  }

  /** A header that is "Bearer", a space, a space-free token and any further
      space-separated pieces yields exactly that token. */
  lemma {:induction false} BearerTokenExtracted(token: string, more: seq<string>)
    requires ' ' !in token
    requires forall i :: 0 <= i < |more| ==> ' ' !in more[i]
    ensures GetTokenFromHeader(Some(JoinWith(["Bearer", token] + more, ' '))) == Str(token)
  {
    var parts := ["Bearer", token] + more;
    forall i | 0 <= i < |parts| ensures ' ' !in parts[i] {
      if i >= 2 { assert parts[i] == more[i - 2]; }
    }
    SplitJoin(parts, ' ');
    assert JoinWith(parts, ' ') != "" by {
      assert JoinWith(parts, ' ') == parts[0] + [' '] + JoinWith(parts[1..], ' ');
    }
  }

  /** Conversely, a token is only ever the second space-separated piece of a
      header whose first piece is exactly "Bearer". */
  lemma {:induction false} TokenComesFromBearer(header: Option<string>)
    requires GetTokenFromHeader(header).Str?
    ensures header.Some?
    ensures var parts := Split(header.value, ' ');
      |parts| >= 2 && parts[0] == "Bearer" && parts[1] == GetTokenFromHeader(header).s
      && JoinWith(parts, ' ') == header.value
  {
    JoinSplit(header.value, ' ');
  }

  /** The header "Bearer" alone is the one header that yields `undefined`,
      which `authenticate` then treats as no token. */
  lemma {:induction false} BareBearerIsUndefined(header: Option<string>)
    ensures GetTokenFromHeader(header) == Undefined <==> header == Some("Bearer")
    ensures !HasToken(GetTokenFromHeader(Some("Bearer")))
  {
    if GetTokenFromHeader(header) == Undefined {
      var parts := Split(header.value, ' ');
      assert |parts| == 1;
      JoinSplit(header.value, ' ');
    } else if header == Some("Bearer") {
      SplitNoSep("Bearer", ' ');
    }
  }

  /** The scheme comparison is case-sensitive and rejects other schemes. */
  lemma OtherSchemesRejected(token: string)
    requires ' ' !in token
    ensures GetTokenFromHeader(Some("bearer " + token)) == Null
    ensures GetTokenFromHeader(Some("Basic " + token)) == Null
  {
    SplitPrefix("bearer", token, ' ');
    assert "bearer " + token == "bearer" + [' '] + token;
    assert "bearer" != "Bearer";
    SplitPrefix("Basic", token, ' ');
    assert "Basic " + token == "Basic" + [' '] + token;
    assert "Basic" != "Bearer";
  }

  /** Pieces after the second are ignored; a double space yields the empty token. */
  lemma ExtractionExamples()
    ensures GetTokenFromHeader(Some("Bearer a b")) == Str("a")
    ensures GetTokenFromHeader(Some("Bearer  x")) == Str("")
  {
    BearerTokenExtracted("a", ["b"]);
    BearerTokenExtracted("", ["x"]);
    assert JoinWith(["Bearer", "a", "b"], ' ') == "Bearer a b";
    assert JoinWith(["Bearer", "", "x"], ' ') == "Bearer  x";
  }

  /** A user record as a JavaScript object: property name to value. */
  type JsObject = map<string, JsValue>

  /** Property read: a missing property reads as `undefined`. */
  function Get(o: JsObject, key: string): JsValue
  {
    if key in o then o[key] else Undefined
  }

  /** The payload `getJWTForUser` signs: `{ id: user.id, username: user.username }`. */
  function JwtPayload(user: JsObject): (payload: JsObject)
    ensures payload.Keys == {"id", "username"}
    ensures forall k :: k in payload ==> payload[k] == Get(user, k)
  {
    map["id" := Get(user, "id"), "username" := Get(user, "username")]
  }

  /** No other property of the user record, a password digest for one,
      reaches the signed payload; projecting again changes nothing. */
  lemma PayloadHidesOtherFields(user: JsObject, key: string)
    requires key != "id" && key != "username"
    ensures key !in JwtPayload(user)
    ensures JwtPayload(JwtPayload(user)) == JwtPayload(user)
  {
  }
}

=== FILE: config.dfy ===
/** The game constants declared at the top of socket.js. */
module Config {

  /** Countdown before a round starts, in timer ticks (seconds). */
  const NextRoundCountdownSeconds: int := 5

  /** Length of a drawing round, in timer ticks (seconds). */
  const SecondsForRound: int := 10

  /** Declared by the source but never consulted by any handler. */
  const MinPlayersToStartGame: int := 2

  /** Room capacity: a join is refused when a room holds this many members. */
  const MaxPlayersInRoom: int := 8

  /** Award for a guess made with the full round time still left. */
  const GuessPointsReward: int := 100

  /** No award may lift a player above this many points. */
  const MaxPoints: int := 300

  /** Floor of a guesser's award before rounding. */
  const MinimumPoints: int := 10
}

=== FILE: js_text.dfy ===
/** The JavaScript string built-ins the session logic relies on:
    `String.prototype.trim`, `toLowerCase` (ASCII letters only, see README)
    and `split` with a one-character separator. */
module JsText {

  /** ECMAScript WhiteSpace and LineTerminator code points, the set `trim` strips. */
  predicate IsWhitespace(c: char)
  {
    || c == '\t' || c == '\n' || c == '\U{000B}' || c == '\U{000C}' || c == '\r'
    || c == ' ' || c == '\U{00A0}' || c == '\U{1680}'
    || ('\U{2000}' <= c <= '\U{200A}')
    || c == '\U{2028}' || c == '\U{2029}' || c == '\U{202F}' || c == '\U{205F}'
    || c == '\U{3000}' || c == '\U{FEFF}'
  }

  predicate AllWhitespace(s: string)
  {
    forall i :: 0 <= i < |s| ==> IsWhitespace(s[i])
  }

  /** Drops leading whitespace: the result is the suffix of `s` that starts
      at its first non-whitespace character. */
  function TrimStart(s: string): (r: string)
    ensures |r| <= |s| && r == s[|s| - |r|..]
    ensures AllWhitespace(s[..|s| - |r|])
    ensures r == [] || !IsWhitespace(r[0])
  {
    if |s| > 0 && IsWhitespace(s[0]) then
      var r := TrimStart(s[1..]);
      assert s[1..][..|s| - 1 - |r|] == s[1..|s| - |r|];
      r
    else s
  }

  /** Drops trailing whitespace: the result is the prefix of `s` that ends
      at its last non-whitespace character. */
  function TrimEnd(s: string): (r: string)
    ensures |r| <= |s| && r == s[..|r|]
    ensures AllWhitespace(s[|r|..])
    ensures r == [] || !IsWhitespace(r[|r| - 1])
  {
    if |s| > 0 && IsWhitespace(s[|s| - 1]) then
      var r := TrimEnd(s[..|s| - 1]);
      assert s[..|s| - 1][|r|..] == s[|r|..|s| - 1];
      assert s[|r|..] == s[|r|..|s| - 1] + [s[|s| - 1]];
      r
    else s
  }

  /** `String.prototype.trim`: whitespace removed from both ends; the
      result is empty exactly when `s` is all whitespace. */
  function Trim(s: string): (r: string)
    ensures |r| <= |s|
    ensures r == [] || (!IsWhitespace(r[0]) && !IsWhitespace(r[|r| - 1]))
    ensures r == [] <==> AllWhitespace(s)
  {
    var a := TrimStart(s);
    var r := TrimEnd(a);
    if r == [] then
      assert a[|r|..] == a;
      WhitespaceJoin(s, |s| - |a|);
      r
    else r
  }

  /** `r` sits in `s` at offset `k` with only whitespace before and after it. */
  predicate PaddedAt(s: string, r: string, k: int)
  {
    0 <= k <= |s| - |r| && r == s[k..k + |r|]
    && AllWhitespace(s[..k]) && AllWhitespace(s[k + |r|..])
  }

  /** What `Trim` removes is whitespace only: its result is an infix of `s`
      with whitespace on either side. */
  lemma TrimIsInfix(s: string)
    ensures exists k :: PaddedAt(s, Trim(s), k)
  {
    var a := TrimStart(s);
    var r := TrimEnd(a);
    var k := |s| - |a|;
    assert Trim(s) == r;
    assert r == s[k..k + |r|];
    assert s[k + |r|..] == a[|r|..];
    assert PaddedAt(s, r, k);
  }

  /** A string whose two pieces around `k` are whitespace is whitespace. */
  lemma WhitespaceJoin(s: string, k: int)
    requires 0 <= k <= |s|
    requires AllWhitespace(s[..k]) && AllWhitespace(s[k..])
    ensures AllWhitespace(s)
  {
  }

  /** Trimming removes exactly the surrounding whitespace: a word with
      non-whitespace ends comes back unchanged from any padding. */
  lemma TrimPadded(pre: string, w: string, post: string)
    requires AllWhitespace(pre) && AllWhitespace(post)
    requires |w| > 0 && !IsWhitespace(w[0]) && !IsWhitespace(w[|w| - 1])
    ensures Trim(pre + w + post) == w
  {
    TrimStartPadded(pre, w + post);
    assert pre + w + post == pre + (w + post);
    TrimEndPadded(w, post);
  }

  lemma {:induction false} TrimStartPadded(pre: string, s: string)
    requires AllWhitespace(pre)
    requires |s| > 0 && !IsWhitespace(s[0])
    ensures TrimStart(pre + s) == s
  {
    if |pre| > 0 {
      assert (pre + s)[1..] == pre[1..] + s;
      TrimStartPadded(pre[1..], s);
    } else {
      assert pre + s == s;
    }
  }

  lemma {:induction false} TrimEndPadded(s: string, post: string)
    requires AllWhitespace(post)
    requires |s| > 0 && !IsWhitespace(s[|s| - 1])
    ensures TrimEnd(s + post) == s
  {
    if |post| > 0 {
      assert (s + post)[..|s + post| - 1] == s + post[..|post| - 1];
      TrimEndPadded(s, post[..|post| - 1]);
    } else {
      assert s + post == s;
    }
  }

  predicate IsUpperAscii(c: char)
  {
    'A' <= c <= 'Z'
  }

  function LowerChar(c: char): (d: char)
    ensures !IsUpperAscii(d)
    ensures IsUpperAscii(c) <==> d != c
    ensures IsUpperAscii(c) ==> d as int == c as int + 32
  {
    if IsUpperAscii(c) then (c as int + 32) as char else c
  }

  /** `String.prototype.toLowerCase`, restricted to the ASCII letters. */
  function ToLower(s: string): (r: string)
    ensures |r| == |s|
    ensures forall i :: 0 <= i < |r| ==> !IsUpperAscii(r[i])
    ensures forall i :: 0 <= i < |r| && !IsUpperAscii(s[i]) ==> r[i] == s[i]
    ensures forall i :: 0 <= i < |r| && IsUpperAscii(s[i]) ==> r[i] as int == s[i] as int + 32
  {
    seq(|s|, i requires 0 <= i < |s| => LowerChar(s[i]))
  }

  /** `m` spells `w` when A-Z capitals in `m` are read as their small letters. */
  predicate EqualIgnoringCase(m: string, w: string)
  {
    |m| == |w|
    && forall i :: 0 <= i < |m| ==>
         m[i] == w[i] || (IsUpperAscii(m[i]) && w[i] as int == m[i] as int + 32)
  }

  /** For a word without capitals, lowercasing a message yields the word
      exactly when the message spells the word up to ASCII case. */
  lemma LowerMatchesIgnoringCase(m: string, w: string)
    requires forall i :: 0 <= i < |w| ==> !IsUpperAscii(w[i])
    ensures ToLower(m) == w <==> EqualIgnoringCase(m, w)
  {
  }

  /** A string with an upper-case ASCII letter is never the lowercase of anything. */
  lemma UpperIsNoLowercase(s: string, w: string)
    requires exists i :: 0 <= i < |w| && IsUpperAscii(w[i])
    ensures ToLower(s) != w
  {
  }

  /** `s.split(sep)` for a one-character separator: every occurrence of
      `sep` separates two pieces, so `n` separators give `n + 1` pieces. */
  function Split(s: string, sep: char): (parts: seq<string>)
    ensures |parts| >= 1
    ensures forall i :: 0 <= i < |parts| ==> sep !in parts[i]
  {
    if |s| == 0 then [""]
    else
      var rest := Split(s[1..], sep);
      if s[0] == sep then [""] + rest
      else [[s[0]] + rest[0]] + rest[1..]
  }

  /** `parts.join(sep)`, the inverse of `Split`. */
  function JoinWith(parts: seq<string>, sep: char): string
    requires |parts| >= 1
  {
    if |parts| == 1 then parts[0] else parts[0] + [sep] + JoinWith(parts[1..], sep)
  }

  /** Joining the pieces of a split gives back the original string. */
  lemma {:induction false} JoinSplit(s: string, sep: char)
    ensures JoinWith(Split(s, sep), sep) == s
  {
    if |s| > 0 {
      var rest := Split(s[1..], sep);
      JoinSplit(s[1..], sep);
      if s[0] != sep && |rest| > 1 {
        calc {
          JoinWith(Split(s, sep), sep);
          ([s[0]] + rest[0]) + [sep] + JoinWith(rest[1..], sep);
          [s[0]] + (rest[0] + [sep] + JoinWith(rest[1..], sep));
          [s[0]] + JoinWith(rest, sep);
          s;
        }
      }
    }
  }

  /** Splitting a join of separator-free pieces gives back the pieces. */
  lemma {:induction false} SplitJoin(parts: seq<string>, sep: char)
    requires |parts| >= 1
    requires forall i :: 0 <= i < |parts| ==> sep !in parts[i]
    ensures Split(JoinWith(parts, sep), sep) == parts
  {
    if |parts| == 1 {
      SplitNoSep(parts[0], sep);
    } else {
      SplitJoin(parts[1..], sep);
      SplitPrefix(parts[0], JoinWith(parts[1..], sep), sep);
      assert parts == [parts[0]] + parts[1..];
    }
  }

  /** A separator-free string splits into itself. */
  lemma {:induction false} SplitNoSep(s: string, sep: char)
    requires sep !in s
    ensures Split(s, sep) == [s]
  {
    if |s| > 0 {
      SplitNoSep(s[1..], sep);
      assert [s[0]] + s[1..] == s;
    }
  }

  /** A separator-free word followed by the separator becomes the first piece. */
  lemma {:induction false} SplitPrefix(w: string, rest: string, sep: char)
    requires sep !in w
    ensures Split(w + [sep] + rest, sep) == [w] + Split(rest, sep)
  {
    if |w| == 0 {
      assert w + [sep] + rest == [sep] + rest;
      assert ([sep] + rest)[1..] == rest;
    } else {
      var s := w + [sep] + rest;
      assert s[1..] == w[1..] + [sep] + rest;
      SplitPrefix(w[1..], rest, sep);
      assert [w[0]] + w[1..] == w;
    }
  }

  /** JavaScript's `a % 10`: the remainder truncates toward zero, so it
      takes the sign of the dividend; it is zero exactly when Dafny's
      Euclidean remainder is. */
  function RemTen(a: int): (r: int)
    ensures a >= 0 ==> 0 <= r < 10
    ensures a < 0 ==> -10 < r <= 0
    ensures r == 0 <==> a % 10 == 0
    ensures (a - r) % 10 == 0
  {
    if a >= 0 then a % 10 else -((-a) % 10)
  }
}

=== FILE: members.dfy ===
/** Room members as value records, and the list operations the handlers in
    socket.js apply to a room's `members` array. */
module Members {

  /** One entry of `roomData[roomID].members`, without its socket. */
  datatype Member = Member(id: int, username: string, points: int, hasDrawn: bool)

  /** The entry a newly authenticated user joins with. */
  function Fresh(id: int, username: string): Member
  {
    Member(id, username, 0, false)
  }

  /** Every member has drawn in the current game (the empty list included). */
  predicate AllDrawn(members: seq<Member>)
  {
    forall i :: 0 <= i < |members| ==> members[i].hasDrawn
  }

  /** Indices of the members who have not drawn in the current game. */
  function Undrawn(members: seq<Member>): set<nat>
  {
    set i: nat | i < |members| && !members[i].hasDrawn
  }

  /** `members.filter(m => m.id !== id)`: every entry of that user goes, the
      rest keep their order. */
  function WithoutUser(members: seq<Member>, id: int): (r: seq<Member>)
    ensures |r| <= |members|
    ensures forall m :: m in r <==> m in members && m.id != id
  {
    if |members| == 0 then []
    else (if members[0].id == id then [] else [members[0]]) + WithoutUser(members[1..], id)
  }

  /** Filtering distributes over concatenation, so the survivors keep their
      relative order. */
  lemma {:induction false} WithoutUserAppend(a: seq<Member>, b: seq<Member>, id: int)
    ensures WithoutUser(a + b, id) == WithoutUser(a, id) + WithoutUser(b, id)
  {
    if |a| > 0 {
      WithoutUserStep(a, b, id);
      WithoutUserAppend(a[1..], b, id);
      var head := if a[0].id == id then [] else [a[0]];
      ConcatAssoc(head, WithoutUser(a[1..], id), WithoutUser(b, id));
    } else {
      assert a + b == b;
    }
  }

  lemma ConcatAssoc(x: seq<Member>, y: seq<Member>, z: seq<Member>)
    ensures x + (y + z) == (x + y) + z
  {
  }

  /** One step of the filter over a concatenation with a non-empty front. */
  lemma WithoutUserStep(a: seq<Member>, b: seq<Member>, id: int)
    requires |a| > 0
    ensures WithoutUser(a + b, id)
         == (if a[0].id == id then [] else [a[0]]) + WithoutUser(a[1..] + b, id)
  {
    assert (a + b)[1..] == a[1..] + b;
  }

  /** Adds `delta` to the points of every entry of user `id`. */
  function AddPoints(members: seq<Member>, id: int, delta: int): (r: seq<Member>)
    ensures |r| == |members|
  {
    seq(|members|, i requires 0 <= i < |members| =>
      if members[i].id == id then members[i].(points := members[i].points + delta)
      else members[i])
  }

  /** The copy made at game over: every entry with `hasDrawn` cleared. */
  function ResetDrawn(members: seq<Member>): (r: seq<Member>)
    ensures |r| == |members|
  {
    seq(|members|, i requires 0 <= i < |members| => members[i].(hasDrawn := false))
  }

  /** Marks entry `i` as having drawn. */
  function MarkDrawn(members: seq<Member>, i: nat): (r: seq<Member>)
    requires i < |members|
    ensures Undrawn(r) == Undrawn(members) - {i}
    ensures |r| == |members| && r[i] == members[i].(hasDrawn := true)
    ensures forall j :: 0 <= j < |r| && j != i ==> r[j] == members[j]
  {
    members[i := members[i].(hasDrawn := true)]
  }

  /** Every entry of user `id` holds `points`. */
  predicate Agrees(members: seq<Member>, id: int, points: int)
  {
    forall i :: 0 <= i < |members| && members[i].id == id ==> members[i].points == points
  }

  /** Every entry holds between 0 and `cap` points. */
  predicate PointsWithin(members: seq<Member>, cap: int)
  {
    forall i :: 0 <= i < |members| ==> 0 <= members[i].points <= cap
  }
}

=== FILE: registry.dfy ===
/** `roomData`, the process-wide map from room id to room state, and the
    socket handlers that look a room up in it: join, `startGame` and
    `disconnect`. Rooms are created on first join and never removed. */
module Registry {
  import opened Wrappers
  import opened Config
  import opened Members
  import opened Turns
  import opened Room

  /** Room ids as they arrive in the connection's handshake query. */
  type RoomId = string

  type Rooms = map<RoomId, RoomState>

  /** The user row fetched for an authenticated connection. */
  datatype UserRecord = UserRecord(id: int, username: string)

  /** Why a connection is dropped instead of joining. */
  datatype JoinRefusal = RoomFull | NoRoomId | UnknownUser

  datatype JoinOutcome = Refused(reason: JoinRefusal) | Joined(rooms: Rooms)

  /** The capacity test: the room exists and holds exactly `MaxPlayersInRoom` members. */
  predicate IsFull(rooms: Rooms, id: RoomId)
  {
    id in rooms && |rooms[id].members| == MaxPlayersInRoom
  }

  /** No room holds more than `MaxPlayersInRoom` members. */
  predicate WithinCapacity(rooms: Rooms)
  {
    forall id :: id in rooms ==> |rooms[id].members| <= MaxPlayersInRoom
  }

  /** The join block of the `authenticated` handler. `roomId` is the
      handshake's room id (`None` when absent) and `user` the fetched user
      row (`None` when the fetch failed). A full room refuses first; a
      missing or empty room id, or a missing user, also drops the
      connection. Otherwise the user's fresh entry is appended to the room,
      which is created if needed, and a room that has just become full
      starts a round without setting `gameStarted`. */
  function Join(rooms: Rooms, roomId: Option<RoomId>, user: Option<UserRecord>, seed: nat): (r: JoinOutcome)
    ensures r == Refused(RoomFull) <==> roomId.Some? && IsFull(rooms, roomId.value)
    ensures r.Joined? <==> roomId.Some? && roomId.value != "" && user.Some? && !IsFull(rooms, roomId.value)
    ensures r.Joined? ==> r.rooms.Keys == rooms.Keys + {roomId.value}
    ensures r.Joined? ==>
      var id := roomId.value;
      var entry := Fresh(user.value.id, user.value.username);
      var room := r.rooms[id];
      && (forall k :: k in rooms && k != id ==> r.rooms[k] == rooms[k])
      && (id !in rooms ==> room == NewRoom(entry))
      && (id in rooms ==> room.members == rooms[id].members + [entry])
      && room.gameStarted == (id in rooms && rooms[id].gameStarted)
      && (|room.members| == MaxPlayersInRoom ==>
            && room.status == WaitingRound
            && room.countdown.Some?
            && room.countdown.value.index in Undrawn(room.members)
            && room.countdown.value.drawer == room.members[room.countdown.value.index]
            && room.countdown.value.secondsBeforeStart == NextRoundCountdownSeconds
            && room == (if id in rooms then rooms[id].(members := room.members) else NewRoom(entry))
                         .(status := WaitingRound, countdown := room.countdown))
      && (id in rooms && |room.members| != MaxPlayersInRoom ==>
            room == rooms[id].(members := room.members))
  {
    if roomId.Some? && IsFull(rooms, roomId.value) then Refused(RoomFull)
    else if roomId.None? || roomId.value == "" then Refused(NoRoomId)
    else if user.None? then Refused(UnknownUser)
    else
      var id := roomId.value;
      var entry := Fresh(user.value.id, user.value.username);
      var room := if id in rooms then rooms[id].(members := rooms[id].members + [entry])
                  else NewRoom(entry);
      assert room.members[|room.members| - 1] == entry;
      var room' := if |room.members| == MaxPlayersInRoom then PrepareRound(room, seed) else room;
      Joined(rooms[id := room'])
  }

  /** Joining never takes a room past its capacity. */
  lemma JoinKeepsCapacity(rooms: Rooms, roomId: Option<RoomId>, user: Option<UserRecord>, seed: nat)
    requires WithinCapacity(rooms)
    ensures var r := Join(rooms, roomId, user, seed); r.Joined? ==> WithinCapacity(r.rooms)
  {
  }

  /** The `disconnect` handler: every entry with the leaving user's id is
      removed, the others keep their order, and the phase, the drawer and the
      word stay as they were (a drawer who leaves does not end the round). */
  function Disconnect(rooms: Rooms, roomId: RoomId, userId: int): (r: Rooms)
    requires roomId in rooms
    ensures r.Keys == rooms.Keys
    ensures forall k :: k in rooms && k != roomId ==> r[k] == rooms[k]
    ensures r[roomId] == rooms[roomId].(members := r[roomId].members)
    ensures forall m :: m in r[roomId].members <==> m in rooms[roomId].members && m.id != userId
    ensures |r[roomId].members| <= |rooms[roomId].members|
  {
    rooms[roomId := rooms[roomId].(members := WithoutUser(rooms[roomId].members, userId))]
  }

  /** The members who stay keep their relative order: removing a user from
      a room whose list is `a + b` leaves the survivors of `a` before those of `b`. */
  lemma DisconnectKeepsOrder(rooms: Rooms, roomId: RoomId, userId: int, a: seq<Member>, b: seq<Member>)
    requires roomId in rooms && rooms[roomId].members == a + b
    ensures Disconnect(rooms, roomId, userId)[roomId].members
            == WithoutUser(a, userId) + WithoutUser(b, userId)
  {
    WithoutUserAppend(a, b, userId);
  }

  /** The errors `startGame` reports to the requesting connection. */
  datatype StartError = NotOwner | AlreadyRunning

  function StartErrorMessage(e: StartError): string
  {
    match e
    case NotOwner => "Not owner of the room"
    case AlreadyRunning => "Game already running"
  }

  /** What a `startGame` request comes to: a started game, an error sent
      back to the requester, or nothing at all when the room row could not
      be read (the handler throws before deciding anything). */
  datatype StartOutcome = Started(rooms: Rooms) | Rejected(error: StartError) | Aborted

  /** The `startGame` handler. `authorId` is the room's `author_id` as
      stored, `None` when the room row is missing. Only the author may
      start, and only while `gameStarted` is not set; a start sets it and
      prepares the first round. There is no check on the number of members. */
  function StartGame(rooms: Rooms, roomId: RoomId, requester: int, authorId: Option<int>, seed: nat)
    : (r: StartOutcome)
    requires roomId in rooms
    ensures r == Aborted <==> authorId.None?
    ensures r == Rejected(NotOwner) <==> authorId.Some? && authorId.value != requester
    ensures r == Rejected(AlreadyRunning) <==>
      authorId == Some(requester) && rooms[roomId].gameStarted
    ensures r.Rejected? ==>
      StartErrorMessage(r.error)
        == (if authorId == Some(requester) then "Game already running" else "Not owner of the room")
    ensures r.Started? ==>
      && r.rooms.Keys == rooms.Keys
      && (forall k :: k in rooms && k != roomId ==> r.rooms[k] == rooms[k])
      && r.rooms[roomId] == PrepareRound(rooms[roomId].(gameStarted := true), seed)
  {
    match authorId
    case None => Aborted
    case Some(author) =>
      if author == requester then
        if !rooms[roomId].gameStarted then
          Started(rooms[roomId := PrepareRound(rooms[roomId].(gameStarted := true), seed)])
        else Rejected(AlreadyRunning)
      else Rejected(NotOwner)
  }

  /** A refused start changes nothing, and an accepted one neither adds nor
      removes members. */
  lemma StartGameKeepsMembers(rooms: Rooms, roomId: RoomId, requester: int, authorId: Option<int>, seed: nat)
    requires roomId in rooms
    ensures var r := StartGame(rooms, roomId, requester, authorId, seed);
      r.Started? ==> SameRoster(r.rooms[roomId].members, rooms[roomId].members)
  {
  }

  /** The author starts a game in a room where they are alone: the declared
      minimum player count is never enforced. */
  lemma LoneAuthorCanStart(rooms: Rooms, roomId: RoomId, author: Member, seed: nat)
    requires roomId in rooms && rooms[roomId].members == [author]
    requires !author.hasDrawn && !rooms[roomId].gameStarted
    ensures var r := StartGame(rooms, roomId, author.id, Some(author.id), seed);
      r.Started? && r.rooms[roomId].status == WaitingRound && r.rooms[roomId].gameStarted
      && |r.rooms[roomId].members| < MinPlayersToStartGame
  {
  }
}

=== FILE: room.dfy ===
/** One room's game state, `roomData[roomID]` in socket.js, and the steps
    that drive it: choosing the next drawer or ending the game, the countdown
    before a round, the round clock, guesses in chat and round resolution.
    Timers become explicit tick steps, `Math.random` becomes a seed and the
    random word an input. */
module Room {
  import opened Wrappers
  import opened Config
  import opened JsText
  import opened Members
  import opened Turns
  import opened Scoring

  datatype Status = NotStarted | WaitingRound | RoundInProgress | GameOver

  /** The countdown awaited between choosing a drawer and starting the round:
      the chosen member, their index at the time of choice and the seconds
      still to count. */
  datatype Countdown = Countdown(drawer: Member, index: nat, secondsBeforeStart: int)

  /** `roomData[roomID]`. `countdown` is the pending countdown, if any;
      `timerArmed` says whether the round clock interval is live. `gameTime`
      is 0 until the first round starts. */
  datatype RoomState = RoomState(
    members: seq<Member>,
    status: Status,
    gameStarted: bool,
    drawingMember: Option<Member>,
    word: Option<string>,
    gameTime: int,
    countdown: Option<Countdown>,
    timerArmed: bool)

  /** The state created by the first join of a room. */
  function NewRoom(first: Member): RoomState
  {
    RoomState([first], NotStarted, false, None, None, 0, None, false)
  }

  /** The members keep their order, ids, names and points. */
  predicate SameRoster(a: seq<Member>, b: seq<Member>)
  {
    |a| == |b|
    && forall i :: 0 <= i < |a| ==>
         a[i].id == b[i].id && a[i].username == b[i].username && a[i].points == b[i].points
  }

  /** The game-over branch of `startGameRound`: the game stops, the drawer is
      cleared and every member may draw again; the word is left in place. */
  function EndGame(room: RoomState): (r: RoomState)
    ensures r.status == GameOver && !r.gameStarted && r.drawingMember.None?
    ensures SameRoster(r.members, room.members)
    ensures forall i :: 0 <= i < |r.members| ==> !r.members[i].hasDrawn
    ensures r.word == room.word && r.gameTime == room.gameTime
    ensures r.countdown == room.countdown && r.timerArmed == room.timerArmed
  {
    room.(status := GameOver, gameStarted := false, drawingMember := None,
          members := ResetDrawn(room.members))
  }

  /** `startGameRound` up to its countdown: with nobody left to draw the game
      ends; otherwise a member who has not drawn is chosen and the room waits.
      The previous drawer and word stay in place while it waits. */
  function PrepareRound(room: RoomState, seed: nat): (r: RoomState)
    ensures AllDrawn(room.members) ==> r == EndGame(room)
    ensures !AllDrawn(room.members) ==>
      && r.status == WaitingRound
      && r.countdown.Some?
      && r.countdown.value.index in Undrawn(room.members)
      && r.countdown.value.drawer == room.members[r.countdown.value.index]
      && r.countdown.value.secondsBeforeStart == NextRoundCountdownSeconds
      && r == room.(status := WaitingRound, countdown := r.countdown)
  {
    match PickNextDrawingMember(room.members, seed)
    case None => EndGame(room)
    case Some(i) =>
      room.(status := WaitingRound,
            countdown := Some(Countdown(room.members[i], i, NextRoundCountdownSeconds)))
  }

  /** The second half of `startGameRound`, once the countdown is over: the
      round is on, with a fresh clock, the given word and the chosen drawer,
      and the entry at the chosen index is marked as having drawn. When the
      list has shrunk below that index the marking fails, the error is
      reported to the room and the round clock is never armed. */
  function StartRound(room: RoomState, word: string): (r: RoomState)
    requires room.countdown.Some?
    ensures r.status == RoundInProgress && r.gameTime == SecondsForRound
    ensures r.word == Some(word) && r.drawingMember == Some(room.countdown.value.drawer)
    ensures r.countdown.None? && r.gameStarted == room.gameStarted
    ensures SameRoster(r.members, room.members)
    ensures var k := room.countdown.value.index;
      if k < |room.members| then
        && r.timerArmed
        && r.members[k].hasDrawn
        && Undrawn(r.members) == Undrawn(room.members) - {k}
        && (forall j :: 0 <= j < |r.members| && j != k ==> r.members[j] == room.members[j])
      else r.timerArmed == room.timerArmed && r.members == room.members
  {
    var c := room.countdown.value;
    var started := room.(status := RoundInProgress, gameTime := SecondsForRound,
                         word := Some(word), drawingMember := Some(c.drawer),
                         countdown := None);
    if c.index < |room.members| then
      started.(members := MarkDrawn(room.members, c.index), timerArmed := true)
    else started
  }

  /** One second of the countdown: "New round starting in N" is announced on
      every tick, and the tick that finds the count at zero or below starts
      the round with `word`. Without a countdown nothing happens. */
  datatype CountdownStep = CountdownStep(room: RoomState, announced: Option<int>)

  function CountdownTick(room: RoomState, word: string): (r: CountdownStep)
    ensures room.countdown.None? ==> r == CountdownStep(room, None)
    ensures room.countdown.Some? ==>
      var s := room.countdown.value.secondsBeforeStart;
      && r.announced == Some(s)
      && (s <= 0 ==> r.room == StartRound(room, word))
      && (s > 0 ==> r.room == room.(countdown := Some(room.countdown.value.(secondsBeforeStart := s - 1))))
  {
    match room.countdown
    case None => CountdownStep(room, None)
    case Some(c) =>
      if c.secondsBeforeStart <= 0 then CountdownStep(StartRound(room, word), Some(c.secondsBeforeStart))
      else CountdownStep(room.(countdown := Some(c.(secondsBeforeStart := c.secondsBeforeStart - 1))),
                         Some(c.secondsBeforeStart))
  }

  /** The points a correct guess moves: the guesser's award to every entry of
      the winner, the drawer's share to every entry of the drawer and to the
      drawer record itself. */
  function AwardPoints(room: RoomState, winner: Member): (r: RoomState)
    requires room.drawingMember.Some?
    ensures var drawer := room.drawingMember.value;
      var a := RoundAwards(room.gameTime, winner.points, drawer.points);
      && |r.members| == |room.members|
      && (forall i :: 0 <= i < |r.members| ==>
            && r.members[i] == room.members[i].(points := r.members[i].points)
            && r.members[i].points == room.members[i].points
                 + (if room.members[i].id == winner.id then a.guesser else 0)
                 + (if room.members[i].id == drawer.id then a.drawer else 0))
      && r.drawingMember == Some(drawer.(points := drawer.points + a.drawer))
      && r == room.(members := r.members, drawingMember := r.drawingMember)
  {
    var drawer := room.drawingMember.value;
    var a := RoundAwards(room.gameTime, winner.points, drawer.points);
    room.(members := AddPoints(AddPoints(room.members, winner.id, a.guesser), drawer.id, a.drawer),
          drawingMember := Some(drawer.(points := drawer.points + a.drawer)))
  }

  /** `endRoundAndStartNextRound`: the round clock stops; with a winner and
      all three counter increments succeeding (`saved`) the awards are added
      to the in-memory points; then the next round is prepared or the game
      ends. Nobody's `hasDrawn` is set here. */
  function Resolve(room: RoomState, winner: Option<Member>, saved: bool, seed: nat): (r: RoomState)
    requires winner.Some? ==> room.drawingMember.Some?
    ensures !r.timerArmed
    ensures r.status == WaitingRound || r.status == GameOver
    ensures r.status == GameOver <==> AllDrawn(room.members)
    ensures r.word == room.word && r.gameTime == room.gameTime
    ensures r.status == WaitingRound ==> r.drawingMember.Some? == room.drawingMember.Some?
    ensures r.status == WaitingRound && r.drawingMember.Some? ==>
      r.drawingMember.value == room.drawingMember.value.(points := r.drawingMember.value.points)
    ensures r.status == WaitingRound ==>
      && r.countdown.Some?
      && r.countdown.value.index in Undrawn(room.members)
      && r.countdown.value.index < |r.members|
      && r.countdown.value.drawer == r.members[r.countdown.value.index]
      && r.countdown.value.secondsBeforeStart == NextRoundCountdownSeconds
    ensures r.gameStarted == (room.gameStarted && !AllDrawn(room.members))
    ensures |r.members| == |room.members|
    ensures forall i :: 0 <= i < |r.members| ==>
      && r.members[i].id == room.members[i].id
      && r.members[i].username == room.members[i].username
      && (r.members[i].hasDrawn ==> room.members[i].hasDrawn)
    ensures !(winner.Some? && saved) ==>
      forall i :: 0 <= i < |r.members| ==> r.members[i].points == room.members[i].points
    ensures r.status == WaitingRound ==>
      forall i :: 0 <= i < |r.members| ==> r.members[i].hasDrawn == room.members[i].hasDrawn
    ensures r.status == GameOver ==>
      && r.drawingMember.None?
      && r.countdown == room.countdown
      && forall i :: 0 <= i < |r.members| ==> !r.members[i].hasDrawn
  {
    var scored := Scored(room, winner, saved);
    PrepareRound(scored, seed)
  }

  /** The stopped clock and, for a saved win, the awarded points. */
  function Scored(room: RoomState, winner: Option<Member>, saved: bool): (r: RoomState)
    requires winner.Some? ==> room.drawingMember.Some?
    ensures !r.timerArmed && r.status == room.status
    ensures r.word == room.word && r.gameTime == room.gameTime
    ensures r.drawingMember.Some? == room.drawingMember.Some?
    ensures r.drawingMember.Some? ==>
      r.drawingMember.value == room.drawingMember.value.(points := r.drawingMember.value.points)
    ensures r.countdown == room.countdown && r.gameStarted == room.gameStarted
    ensures |r.members| == |room.members|
    ensures forall i :: 0 <= i < |r.members| ==>
      r.members[i] == room.members[i].(points := r.members[i].points)
    ensures AllDrawn(r.members) <==> AllDrawn(room.members)
    ensures Undrawn(r.members) == Undrawn(room.members)
    ensures !(winner.Some? && saved) ==> r.members == room.members
  {
    var stopped := room.(timerArmed := false);
    if winner.Some? && saved then AwardPoints(stopped, winner.value) else stopped
  }

  /** One second of the round clock (`gameRoundInterval`): the time left is
      announced when it is a multiple of 10 or at most 5, then decremented; the
      tick that takes it to zero or below resolves the round without winner.
      A stopped clock does not tick. */
  datatype TickStep = TickStep(room: RoomState, announced: Option<int>)

  function Tick(room: RoomState, seed: nat): (r: TickStep)
    ensures !room.timerArmed ==> r == TickStep(room, None)
    ensures room.timerArmed ==>
      var t := room.gameTime;
      && (r.announced.Some? <==> t % 10 == 0 || t <= 5)
      && (r.announced.Some? ==> r.announced.value == t)
      && (t > 1 ==> r.room == room.(gameTime := t - 1))
      && (t <= 1 ==> r.room == Resolve(room.(gameTime := t - 1), None, false, seed))
  {
    if !room.timerArmed then TickStep(room, None)
    else
      var t := room.gameTime;
      var announced := if RemTen(t) == 0 || t <= 5 then Some(t) else None;
      var after := room.(gameTime := t - 1);
      TickStep(if t - 1 <= 0 then Resolve(after, None, false, seed) else after, announced)
  }

  /** The outcome of a chat message: the trimmed text broadcast to the room
      (if any) and whether it resolved the round as a correct guess. */
  datatype ChatStep = ChatStep(room: RoomState, broadcast: Option<string>, correct: bool)

  /** A guess is correct when there is a drawer, the sender is not the
      drawer, and the lowercased message equals the stored word exactly. The
      phase is not consulted. */
  predicate IsCorrectGuess(room: RoomState, sender: Member, text: string)
  {
    room.drawingMember.Some? && room.drawingMember.value.id != sender.id
    && room.word == Some(ToLower(text))
  }

  /** The `chat` handler: the message is trimmed; an empty one is dropped;
      otherwise it is broadcast, and a correct guess resolves the round with
      the sender as winner. */
  function Chat(room: RoomState, sender: Member, message: string, saved: bool, seed: nat): (r: ChatStep)
    ensures r.broadcast.None? <==> AllWhitespace(message)
    ensures r.broadcast.Some? ==> r.broadcast.value == Trim(message)
    ensures r.correct <==> !AllWhitespace(message) && IsCorrectGuess(room, sender, Trim(message))
    ensures !r.correct ==> r.room == room
    ensures r.correct ==> r.room == Resolve(room, Some(sender), saved, seed)
  {
    var text := Trim(message);
    if text == [] then ChatStep(room, None, false)
    else if IsCorrectGuess(room, sender, text) then
      ChatStep(Resolve(room, Some(sender), saved, seed), Some(text), true)
    else ChatStep(room, Some(text), false)
  }
}

=== FILE: room_properties.dfy ===
/** Properties of the room steps that relate several steps or hold over
    runs of them. */
module RoomProperties {
  import opened Wrappers
  import opened Config
  import opened JsText
  import opened Members
  import opened Turns
  import opened Scoring
  import opened Room

  /** Each entry gains the guesser's award if it belongs to the winner and
      the drawer's share if it belongs to the drawer, provided the counter
      increments succeeded; otherwise nobody's points move. */
  lemma ResolveAwards(room: RoomState, winner: Option<Member>, saved: bool, seed: nat)
    requires winner.Some? ==> room.drawingMember.Some?
    ensures var r := Resolve(room, winner, saved, seed);
      forall i :: 0 <= i < |r.members| ==>
        r.members[i].points == room.members[i].points
          + (if winner.Some? && saved then
               var drawer := room.drawingMember.value;
               var a := RoundAwards(room.gameTime, winner.value.points, drawer.points);
               (if room.members[i].id == winner.value.id then a.guesser else 0)
               + (if room.members[i].id == drawer.id then a.drawer else 0)
             else 0)
  {
  }

  /** Points stay within [0, MaxPoints]: a resolution keeps every entry in
      range when the winner and the drawer hold the points their entries
      show and are different users (as a guess guarantees). */
  lemma ResolveKeepsPointsCapped(room: RoomState, winner: Option<Member>, saved: bool, seed: nat)
    requires winner.Some? ==> room.drawingMember.Some?
    requires PointsWithin(room.members, MaxPoints)
    requires winner.Some? ==>
      var drawer := room.drawingMember.value;
      && winner.value.id != drawer.id
      && 0 <= winner.value.points <= MaxPoints && 0 <= drawer.points <= MaxPoints
      && Agrees(room.members, winner.value.id, winner.value.points)
      && Agrees(room.members, drawer.id, drawer.points)
    ensures PointsWithin(Resolve(room, winner, saved, seed).members, MaxPoints)
  {
  }

  /** The guess check ignores the phase, and resolution leaves the drawer and
      the word in place while the next round waits: a correct guess repeated
      during that countdown resolves again and scores again. */
  lemma StaleGuessResolvesAgain(room: RoomState, sender: Member, message: string,
                                saved: bool, seed: nat, saved': bool, seed': nat)
    requires Chat(room, sender, message, saved, seed).correct
    requires Chat(room, sender, message, saved, seed).room.status == WaitingRound
    ensures Chat(Chat(room, sender, message, saved, seed).room, sender, message, saved', seed').correct
  {
  }

  /** The stored word is compared as is: a word with an upper-case letter
      can never be guessed. */
  lemma UppercaseWordNeverGuessed(room: RoomState, sender: Member, message: string,
                                  saved: bool, seed: nat)
    requires room.word.Some?
    requires exists i :: 0 <= i < |room.word.value| && IsUpperAscii(room.word.value[i])
    ensures !Chat(room, sender, message, saved, seed).correct
  {
  }

  /** The drawer's own messages never resolve the round. */
  lemma DrawerCannotGuess(room: RoomState, message: string, saved: bool, seed: nat)
    requires room.drawingMember.Some?
    ensures !Chat(room, room.drawingMember.value, message, saved, seed).correct
  {
  }

  /** Surrounding whitespace and letter case in the message do not matter:
      "  Apple  " guesses the word "apple". */
  lemma PaddedMixedCaseGuess(room: RoomState, sender: Member, saved: bool, seed: nat)
    requires room.drawingMember.Some? && room.drawingMember.value.id != sender.id
    requires room.word == Some("apple")
    ensures Chat(room, sender, "  Apple  ", saved, seed).correct
  {
    var message := "  Apple  ";
    TrimPadded("  ", "Apple", "  ");
    assert "  " + "Apple" + "  " == message;
    assert Trim(message) == "Apple" && !AllWhitespace(message);
    LowerApple();
    assert IsCorrectGuess(room, sender, Trim(message));
  }

  lemma LowerApple()
    ensures ToLower("Apple") == "apple"
  {
    var r := ToLower("Apple");
    assert r[0] == 'a' && r[1..] == "pple";
  }

  /** `n` seconds of the round clock. */
  function Ticks(room: RoomState, n: nat, seed: nat): RoomState
    decreases n
  {
    if n == 0 then room else Ticks(Tick(room, seed).room, n - 1, seed)
  }

  /** While more than `n` seconds are left, `n` ticks only count the clock down. */
  lemma {:induction false} TicksCountDown(room: RoomState, n: nat, seed: nat)
    requires room.timerArmed && room.gameTime > n
    ensures Ticks(room, n, seed) == room.(gameTime := room.gameTime - n)
    decreases n
  {
    if n > 0 {
      var next := Tick(room, seed).room;
      assert next == room.(gameTime := room.gameTime - 1);
      TicksCountDown(next, n - 1, seed);
    }
  }

  /** A round started with the full clock runs nine ticks and ends with the
      tenth, without a winner. */
  lemma RoundTimesOutAfterTenTicks(room: RoomState, seed: nat)
    requires room.timerArmed && room.gameTime == SecondsForRound
    requires room.status == RoundInProgress
    ensures Ticks(room, 9, seed).status == RoundInProgress
    ensures Ticks(room, 9, seed).timerArmed
    ensures var last := Ticks(room, 10, seed);
      !last.timerArmed && (last.status == WaitingRound || last.status == GameOver)
  {
  }

  /** `n` seconds of the countdown before a round, with `word` ready. */
  function CountdownTicks(room: RoomState, n: nat, word: string): RoomState
    decreases n
  {
    if n == 0 then room else CountdownTicks(CountdownTick(room, word).room, n - 1, word)
  }

  /** Counting down from `s`, the room still waits after `s` ticks. */
  lemma {:induction false} CountdownWaits(room: RoomState, n: nat, word: string)
    requires room.countdown.Some? && room.countdown.value.secondsBeforeStart >= n
    ensures CountdownTicks(room, n, word)
         == room.(countdown := Some(room.countdown.value.(
                    secondsBeforeStart := room.countdown.value.secondsBeforeStart - n)))
    decreases n
  {
    if n > 0 {
      var next := CountdownTick(room, word).room;
      CountdownWaits(next, n - 1, word);
    }
  }

  /** After a drawer is chosen the countdown announces 5, 4, 3, 2, 1, 0 and
      the round starts on the sixth tick, with the chosen member drawing and
      marked as having drawn. */
  lemma RoundStartsOnSixthCountdownTick(room: RoomState, seed: nat, word: string)
    requires !AllDrawn(room.members)
    ensures var waiting := PrepareRound(room, seed);
      && CountdownTicks(waiting, 5, word).status == WaitingRound
      && var started := CountdownTicks(waiting, 6, word);
         && started.status == RoundInProgress
         && started.timerArmed
         && started.word == Some(word)
         && exists i :: PickNextDrawingMember(room.members, seed) == Some(i)
              && started.drawingMember == Some(room.members[i])
              && started.members == MarkDrawn(room.members, i)
  {
  }
}

=== FILE: scoring.dfy ===
/** The award arithmetic of the round resolution in socket.js. The source
    computes `GUESS_POINTS_REWARD * (gameTime / SECONDS_FOR_ROUND)` in floating
    point; with integer `gameTime` at most `SECONDS_FOR_ROUND` that quotient is
    exact, so the model works over rationals written as integer fractions. */
module Scoring {
  import opened Config

  /** Ceiling of `a / d` for a positive divisor. */
  function CeilDiv(a: int, d: int): (q: int)
    requires d > 0
    ensures d * (q - 1) < a <= d * q
  {
    -((-a) / d)
  }

  /** The guesser's award before the cap: the proportional reward
      `100 * gameTime / 10`, raised to at least 10, then rounded up to a
      multiple of 10. */
  function GuesserBase(gameTime: int): (base: int)
    ensures base % 10 == 0
    ensures base >= MinimumPoints
    ensures base * SecondsForRound >= GuessPointsReward * gameTime
    // it is the least such multiple of ten
    ensures (base - 10) * SecondsForRound < GuessPointsReward * gameTime
            || base - 10 < MinimumPoints
    ensures gameTime <= SecondsForRound ==> base <= GuessPointsReward
  {
    var raw := GuessPointsReward * gameTime;
    var least := MinimumPoints * SecondsForRound;
    var raised := if raw < least then least else raw;
    CeilDiv(raised, 10 * SecondsForRound) * 10
  }

  /** The drawer's share: half the unclamped guesser award, rounded up to a
      multiple of 10. */
  function DrawerShare(base: int): (share: int)
    ensures share % 10 == 0
    ensures 2 * share >= base
    ensures 2 * (share - 10) < base
  {
    CeilDiv(base, 20) * 10
  }

  /** Cap an award so that `points` plus the award stays within `MaxPoints`. */
  function Capped(points: int, award: int): (r: int)
    ensures points + r <= MaxPoints
    ensures r <= award
    ensures points + award <= MaxPoints ==> r == award
    ensures points + award > MaxPoints ==> r == MaxPoints - points
    ensures 0 <= award && points <= MaxPoints ==> 0 <= r
  {
    if points + award > MaxPoints then MaxPoints - points else award
  }

  /** The two awards of a correct guess. */
  datatype Awards = Awards(guesser: int, drawer: int)

  /** Awards for a guess made with `gameTime` seconds left, given the points
      the winner and the drawer already hold. The drawer's share is taken from
      the guesser's award before the guesser's cap. */
  function RoundAwards(gameTime: int, winnerPoints: int, drawerPoints: int): (a: Awards)
    // the guesser gets the base award, or whatever is left below the cap
    ensures a.guesser <= GuesserBase(gameTime) && winnerPoints + a.guesser <= MaxPoints
    ensures a.guesser == GuesserBase(gameTime) || winnerPoints + a.guesser == MaxPoints
    // the drawer gets half the uncapped base award, or whatever is left below the cap
    ensures a.drawer <= DrawerShare(GuesserBase(gameTime)) && drawerPoints + a.drawer <= MaxPoints
    ensures a.drawer == DrawerShare(GuesserBase(gameTime)) || drawerPoints + a.drawer == MaxPoints
  {
    var base := GuesserBase(gameTime);
    Awards(Capped(winnerPoints, base), Capped(drawerPoints, DrawerShare(base)))
  }

  /** The drawer's award does not depend on how many points the winner
      already holds: the share is taken before the guesser's cap. */
  lemma DrawerAwardIgnoresWinner(gameTime: int, winnerA: int, winnerB: int, drawerPoints: int)
    ensures RoundAwards(gameTime, winnerA, drawerPoints).drawer
         == RoundAwards(gameTime, winnerB, drawerPoints).drawer
         == Capped(drawerPoints, DrawerShare(GuesserBase(gameTime)))
  {
  }

  /** Over a round's clock (0 to 10 seconds left) the guesser's award lies in
      [10, 100] and is ten points per second left, and the drawer's share lies
      in [10, 50]. */
  lemma AwardRange(gameTime: int)
    requires 0 <= gameTime <= SecondsForRound
    ensures MinimumPoints <= GuesserBase(gameTime) <= GuessPointsReward
    ensures gameTime >= 1 ==> GuesserBase(gameTime) == 10 * gameTime
    ensures 10 <= DrawerShare(GuesserBase(gameTime)) <= 50
  {
  }

  /** With both players within the cap, both awards are non-negative and
      neither player ends above `MaxPoints`. */
  lemma AwardsKeepCap(gameTime: int, winnerPoints: int, drawerPoints: int)
    requires 0 <= winnerPoints <= MaxPoints && 0 <= drawerPoints <= MaxPoints
    ensures var a := RoundAwards(gameTime, winnerPoints, drawerPoints);
      0 <= a.guesser && winnerPoints + a.guesser <= MaxPoints
      && 0 <= a.drawer && drawerPoints + a.drawer <= MaxPoints
  {
  }

  /** A winner already at the cap gains nothing while the drawer still gets
      the share of the full award. */
  lemma DrawerShareIgnoresGuesserCap()
    ensures RoundAwards(SecondsForRound, MaxPoints, 0) == Awards(0, 50)
  {
  }
}

=== FILE: turns.dfy ===
/** Turn selection, `pickNextDrawingMember` in socket.js: a member may draw
    when `hasDrawn` is false; when nobody may, the selector reports the end
    of the game. The source draws random indices until it hits an eligible
    one; here that is a choice among the eligible indices. */
module Turns {
  import opened Wrappers
  import opened Members

  /** The selector's contract: `None` exactly when every member has drawn
      (the empty list included), otherwise an in-range index of a member
      who has not drawn. */
  predicate IsPick(members: seq<Member>, pick: Option<nat>)
  {
    match pick
    case None => AllDrawn(members)
    case Some(i) => i < |members| && !members[i].hasDrawn
  }

  /** The eligible indices from `start` on, in increasing order. */
  function EligibleFrom(members: seq<Member>, start: nat): (idx: seq<nat>)
    requires start <= |members|
    ensures forall k :: 0 <= k < |idx| ==> start <= idx[k] < |members| && !members[idx[k]].hasDrawn
    ensures forall i :: start <= i < |members| && !members[i].hasDrawn ==> i in idx
    decreases |members| - start
  {
    if start == |members| then []
    else
      var rest := EligibleFrom(members, start + 1);
      if members[start].hasDrawn then rest else [start] + rest
  }

  /** `pickNextDrawingMember` with the random draws replaced by `seed`: the
      `seed`-th eligible index, cyclically. */
  function PickNextDrawingMember(members: seq<Member>, seed: nat): (pick: Option<nat>)
    ensures IsPick(members, pick)
  {
    var eligible := EligibleFrom(members, 0);
    if |eligible| == 0 then None else Some(eligible[seed % |eligible|])
  }

  /** The seed ranges over exactly the choices the random draws can make:
      every member who has not drawn is picked for some seed. */
  lemma EveryEligibleMemberCanBePicked(members: seq<Member>, i: nat)
    requires i < |members| && !members[i].hasDrawn
    ensures exists seed: nat :: PickNextDrawingMember(members, seed) == Some(i)
  {
    var eligible := EligibleFrom(members, 0);
    assert i in eligible;
    var k: nat :| k < |eligible| && eligible[k] == i;
    ModBelow(k, |eligible|);
    assert PickNextDrawingMember(members, k) == Some(i);
  }

  lemma ModBelow(k: nat, n: nat)
    requires k < n
    ensures k % n == k
  {
  }

  /** The source's algorithm: scan for a member who has not drawn, then pick
      one of them (the random rejection loop, as a nondeterministic choice). */
  method PickNext(members: seq<Member>) returns (pick: Option<nat>)
    ensures IsPick(members, pick)
  {
    var remaining := false;
    var i := 0;
    while i < |members| && !remaining
      invariant 0 <= i <= |members|
      invariant forall j :: 0 <= j < i ==> members[j].hasDrawn
      invariant remaining ==> i < |members| && !members[i].hasDrawn
      decreases |members| - i, if remaining then 0 else 1
    {
      if !members[i].hasDrawn {
        remaining := true;
      } else {
        i := i + 1;
      }
    }
    if !remaining {
      return None;
    }
    var chosen :| 0 <= chosen < |members| && !members[chosen].hasDrawn;
    pick := Some(chosen);
  }

  /** The drawers of successive rounds over a fixed member list: each round
      picks with the next seed and marks the pick; stops when the selector
      reports that everybody has drawn or the seeds run out. */
  function DrawOrder(members: seq<Member>, seeds: seq<nat>): seq<nat>
    decreases |seeds|
  {
    if |seeds| == 0 then []
    else match PickNextDrawingMember(members, seeds[0])
      case None => []
      case Some(i) => [i] + DrawOrder(MarkDrawn(members, i), seeds[1..])
  }

  /** Over a fixed member list nobody draws twice in one game, and only
      members who had not drawn are picked. */
  lemma {:induction false} DrawOrderDistinctUndrawn(members: seq<Member>, seeds: seq<nat>)
    ensures forall x :: x in DrawOrder(members, seeds) ==> x in Undrawn(members)
    ensures forall k, l :: 0 <= k < l < |DrawOrder(members, seeds)|
              ==> DrawOrder(members, seeds)[k] != DrawOrder(members, seeds)[l]
    decreases |seeds|
  {
    if |seeds| > 0 {
      match PickNextDrawingMember(members, seeds[0])
      case None =>
      case Some(i) =>
        var marked := MarkDrawn(members, i);
        DrawOrderDistinctUndrawn(marked, seeds[1..]);
        var tail := DrawOrder(marked, seeds[1..]);
        var d := DrawOrder(members, seeds);
        assert d == [i] + tail;
        assert i in Undrawn(members);
        forall k, l | 0 <= k < l < |d| ensures d[k] != d[l] {
          assert d[l] == tail[l - 1] && tail[l - 1] in tail;
          if k > 0 { assert d[k] == tail[k - 1]; }
        }
    }
  }

  /** Each seed yields a round until the undrawn members run out: the game
      has as many rounds as there are undrawn members, given seeds for them. */
  lemma {:induction false} DrawOrderLength(members: seq<Member>, seeds: seq<nat>)
    ensures |DrawOrder(members, seeds)|
            == if |seeds| < |Undrawn(members)| then |seeds| else |Undrawn(members)|
    decreases |seeds|
  {
    if |seeds| > 0 {
      match PickNextDrawingMember(members, seeds[0])
      case None =>
        assert Undrawn(members) == {};
      case Some(i) =>
        DrawOrderLength(MarkDrawn(members, i), seeds[1..]);
    }
  }

  /** Given enough rounds, every member who had not drawn draws. */
  lemma {:induction false} DrawOrderCovers(members: seq<Member>, seeds: seq<nat>)
    requires |seeds| >= |Undrawn(members)|
    ensures forall x :: x in Undrawn(members) ==> x in DrawOrder(members, seeds)
    decreases |seeds|
  {
    if |seeds| > 0 {
      match PickNextDrawingMember(members, seeds[0])
      case None =>
      case Some(i) =>
        var marked := MarkDrawn(members, i);
        assert |Undrawn(marked)| == |Undrawn(members)| - 1;
        DrawOrderCovers(marked, seeds[1..]);
    } else {
      assert Undrawn(members) == {};
    }
  }
}

=== FILE: views.dfy ===
/** The projections socket.js sends to clients: `pickAttributesFromUser`,
    `getRoom` and the room snapshot a joining connection receives. */
module Views {
  import opened Wrappers
  import opened Members
  import opened Room

  /** The public attributes of a member. */
  datatype UserView = UserView(id: int, username: string, points: int)

  /** `pickAttributesFromUser`: `null` stays `null`; a member shows its id,
      name and points and nothing else. */
  function PickAttributesFromUser(m: Option<Member>): (v: Option<UserView>)
    ensures v.None? <==> m.None?
    ensures v.Some? ==> v.value.id == m.value.id && v.value.username == m.value.username
                        && v.value.points == m.value.points
  {
    match m
    case None => None
    case Some(u) => Some(UserView(u.id, u.username, u.points))
  }

  /** The public attributes of each member, in order. */
  function MemberViews(members: seq<Member>): (vs: seq<UserView>)
    ensures |vs| == |members|
    ensures forall i :: 0 <= i < |vs| ==> Some(vs[i]) == PickAttributesFromUser(Some(members[i]))
  {
    seq(|members|, i requires 0 <= i < |members| => PickAttributesFromUser(Some(members[i])).value)
  }

  /** The room row with its author, as stored. */
  datatype Author = Author(id: int, username: string)
  datatype RoomRecord = RoomRecord(id: int, name: string, author: Author)

  /** What the lobby is told about a room. */
  datatype RoomView = RoomView(id: int, name: string, author: Author, status: Option<Status>,
                               members: seq<UserView>, userDrawing: Option<UserView>)

  /** `getRoom`: the stored room with, when the room has game data, its
      status, its members' public attributes in order and the drawer. */
  function GetRoom(room: RoomRecord, gameData: Option<RoomState>): (v: RoomView)
    ensures v.id == room.id && v.name == room.name && v.author == room.author
    ensures gameData.None? ==> v.status.None? && v.members == [] && v.userDrawing.None?
    ensures gameData.Some? ==>
      && v.status == Some(gameData.value.status)
      && v.members == MemberViews(gameData.value.members)
      && v.userDrawing == PickAttributesFromUser(gameData.value.drawingMember)
  {
    match gameData
    case None => RoomView(room.id, room.name, room.author, None, [], None)
    case Some(g) =>
      RoomView(room.id, room.name, room.author, Some(g.status),
               MemberViews(g.members),
               PickAttributesFromUser(g.drawingMember))
  }

  /** The lobby view does not reveal who has drawn, nor the word. */
  lemma RoomViewHidesTurnsAndWord(room: RoomRecord, g: RoomState, word: Option<string>)
    ensures GetRoom(room, Some(g)) == GetRoom(room, Some(g.(members := ResetDrawn(g.members), word := word)))
  {
  }

  /** The snapshot sent to a connection that has just joined. */
  datatype Snapshot = Snapshot(members: seq<UserView>, status: Status,
                               userDrawing: Option<UserView>, wordDrawing: Option<string>)

  /** The `room` event of the join block: members, status and drawer, and
      the word only when the joining user is the drawer. */
  function JoinSnapshot(g: RoomState, joinerId: int): (s: Snapshot)
    ensures s.wordDrawing.Some? ==>
      g.drawingMember.Some? && g.drawingMember.value.id == joinerId && g.word == s.wordDrawing
    ensures g.drawingMember.Some? && g.drawingMember.value.id == joinerId ==> s.wordDrawing == g.word
    ensures s.members == MemberViews(g.members) && s.status == g.status
    ensures s.userDrawing == PickAttributesFromUser(g.drawingMember)
  {
    Snapshot(MemberViews(g.members), g.status,
             PickAttributesFromUser(g.drawingMember),
             if g.drawingMember.Some? && g.drawingMember.value.id == joinerId then g.word else None)
  }
}

=== FILE: wrappers.dfy ===
/** Option, the shape used for JavaScript's `null` and `undefined`. */
module Wrappers {

  datatype Option<+T> = None | Some(value: T)
}
